=== FILE: README.md ===
# Survey form controller — a Dafny model

This project models the multi-step survey form of the ArtNepalaya landing page
script (`script.js`). The page's copy loading, theming and animations are
glue. The form controller is the one part with real logic:

- **Step validation** (`validateStep`). The required controls of one step are
  checked. Text-like controls must hold a non-space character. Checkbox and
  radio groups marked `data-required="true"` need one checked member.
  Questions inside an inactive persona block are skipped. Error indicators are
  set or cleared, and one notification is shown on failure.
- **Navigation** (`goToStep`, the next and previous handlers). This covers the
  current step, which step is visible, the prev/next/submit buttons and the
  progress bar.
- **Persona selection**. The toggle handler and `updatePersonaQuestions`.
- **Payload assembly**. The record `submitForm` posts: base answers, the
  persona tag, and only that persona's answers, read through `FormData`.
- **Submission outcome**. How the reply is judged, what a success shows, and
  how a failure restores the submit button.
- **CSS custom-property names**. `applyColors` derives a name such as
  `--color-primary-blue` from a key such as `colorPrimaryBlue`.

The DOM is plain data. A `Step` is the list of its controls (`Field`
records). A `Block` is a persona question block with its tag. Group labels
are a map from group name to error flag. The notification surface is a log
of `Notice`s. The controller's module state (`currentStep`,
`selectedPersona`) is part of an immutable `Session`. Every handler is a
function from one session to the next. The reply to the POST is an abstract
`Reply`: a transport failure, or an HTTP status with a body text and what
`JSON.parse` makes of it.

Modules: `Text` (JavaScript `trim`, decimal rendering), `Form` (data model),
`Validation`, `Payload`, `Submission`, `Controller`, `Theme`.

The central invariant is `Controller.Inv`. Every handler preserves it, and
`Controller.Init` establishes it. It says:

- the current step lies in `[1, totalSteps]`;
- exactly that step is visible;
- the buttons and the progress bar match the current step;
- on step 2 the active question blocks are exactly the selected persona's;
- what the page shows matches the submission phase.

`goToStep` has no bounds check. The bound holds only because each handler
fires from a shown button: prev is hidden on step 1, next on the last step.

Two behaviours of the code are modelled as written:

- The submit handler does not check that the form is on the last step. It
  validates whatever step is current.
- Choosing a persona away from step 2 changes the persona but does not
  re-filter the question blocks. `Controller.LateToggleLeavesBlocksStale`
  gives a concrete session where this happens. The posted record then
  carries a persona whose questions step 2 never checked.

## Model

| member | source | states |
|---|---|---|
| Text.TrimEmptyIff | script.js:398 | a value trims to `''` exactly when all of its characters are JavaScript white space or line terminators |
| Text.TrimIsCore | script.js:398 | `trim` keeps one contiguous piece of the input that neither starts nor ends with a space; everything cut off is space |
| Text.DecimalString | script.js:457 | the status in the HTTP error text is written in decimal digits, without leading zeros |
| Text.DecimalRoundTrip | script.js:457 | the decimal rendering of a status reads back as the same number |
| Form.FindStep | script.js:368-369 | the step looked up for `n` is the first one in document order with that `data-step`; when none has it, the lookup fails |
| Form.FindStepWellFormed | script.js:368-369 | when steps are numbered 1..N in order, step `n` is found exactly for `1 <= n <= N`, at position `n - 1` |
| Validation.PassFrom | script.js:371-405 | the `isValid` flag after the `forEach` is true iff no control from the given position on fails its check; a failure does not stop the loop |
| Validation.MarkFrom | script.js:397-403 | after the loop each control carries the indicator its own check dictates, and nothing else about it changes |
| Validation.LabelsFrom | script.js:382-396 | after the loop a group label that some control examined shows its group's verdict; every other label keeps its indicator |
| Validation.ScanAll | script.js:371-405 | one pass over the step's controls yields the verdict, the marked controls and the updated labels |
| Validation.ValidateStep | script.js:367-411 | with no step `n`: false, nothing changed, no notification; otherwise true iff no examined control fails; exactly one error notification iff it fails; only step `n`'s indicators change |
| Validation.ValidateMarksEachField | script.js:397-403 | each control of the validated step ends up with the indicator its own check dictates |
| Validation.HiddenPersonaFieldIgnored | script.js:377-380 | a required control in an inactive persona block never fails validation, and its indicator is left as it was |
| Validation.TextFieldRule | script.js:397-403 | an examined text-like control fails iff its value is all white space; failing sets its indicator, passing clears it |
| Validation.UnmarkedChoiceIgnored | script.js:382-385 | a checkbox or radio without a name or without `data-required="true"` is never checked, even with `required` |
| Validation.GroupRule | script.js:382-396 | a marked choice input fails iff no input of its name in the same step is checked; its group label's indicator is set or cleared to match |
| Validation.UnexaminedLabelUnchanged | script.js:382-396 | a group label that no examined control of the step refers to keeps its indicator |
| Validation.ValidateKeepsAnswers | script.js:367-411 | validation changes only error indicators: every step keeps its number and every control keeps its name, kind, value and checked state |
| Validation.ValidateIdempotent | script.js:367-411 | validating a step again right after gives the same verdict and changes no further indicator |
| Payload.FieldEntries | script.js:418 | the entries one step contributes to `FormData` are those of its named controls, where a checkbox or radio counts only if it is checked |
| Payload.Entries | script.js:418 | `FormData` holds an entry for every named, submitted control of every step, and nothing else |
| Payload.Get | script.js:426-429 | `formData.get(key)` is null iff no entry has that name; otherwise it is the value of the first such entry |
| Payload.GetAll | script.js:438 | `formData.getAll(key)` contains a value iff some entry of that name carries it |
| Payload.FieldEntriesAppend | script.js:418 | `FormData` keeps document order: two runs of controls give the first run's entries followed by the second's, with nothing merged or dropped |
| Payload.FieldEntriesOne | script.js:418 | one control adds exactly one entry, its own name and value, when it submits, and none otherwise |
| Payload.EntriesAppend | script.js:418 | the entries of consecutive steps are those of the first steps followed by those of the later ones |
| Payload.EntriesOne | script.js:418 | one step adds exactly the entries of its own controls, in their order |
| Payload.GetAllAppend | script.js:438 | `formData.getAll(key)` keeps entry order and repeats: the values from the first entries come before those from the later ones |
| Payload.GetAllOne | script.js:438 | one entry adds its value to `getAll` of its own name, once, and to no other name |
| Payload.GetAppend | script.js:426-429 | `formData.get(key)` answers from the earlier entries whenever they have that name, and only otherwise looks further |
| Payload.GetFirstControl | script.js:418-429 | `formData.get(key)` is the value of the first submitting control named `key` in document order, the earliest step first and the earliest control within it |
| Payload.AssembleEntriesShape | script.js:425-446 | from the entries, the record has exactly the base keys and the persona's keys; base keys hold the base values and each persona key holds its slot's value |
| Payload.Assemble | script.js:425-446 | the posted record holds the five base keys plus exactly the recognised persona's keys; single-valued keys take the first value and multi-valued keys take all values |
| Payload.EntriesIgnoreIndicators | script.js:418 | error indicators play no part in `FormData`: two pages with the same answers give the same entries |
| Payload.AssembleIgnoresIndicators | script.js:417-446 | the posted record depends only on the answers and the persona, not on any error indicator |
| Payload.PersonaKeysAreSlotKeys | script.js:434-446 | each persona's key set is exactly the keys of its declared slots |
| Payload.OnlyActivePersonaKeys | script.js:434-446 | no key of any other persona ever appears in the record; an unrecognised persona yields only the base keys |
| Payload.PersonaKeysDisjoint | script.js:434-446 | no two personas share a key, and none reuses a base key |
| Payload.MultiCollectsAll | script.js:438-444 | a multi-valued key lists a value iff some checked control of that name, in any step, carries it, so every selected option is collected |
| Payload.SingleNullIff | script.js:426-429 | a single-valued key is null iff no submitted control has that name |
| Submission.Judge | script.js:455-484 | a reply is accepted iff it is an HTTP response with an OK status, a body starting with `{` or `[`, that parses, whose `status` is `success`; otherwise the first failing gate gives the reason |
| Submission.ServerRejection | script.js:471-483 | a well-formed reply whose status is not `success` is rejected with the server's message, or with the fixed text when it sent none |
| Submission.HttpReasonsDistinct | script.js:456-457 | two different failing HTTP statuses never give the same rejection |
| Submission.FailureNoticeInjective | script.js:487 | different rejection reasons never show the same notification, so the notification carries the reason |
| Controller.Progress | script.js:344-346 | the progress width is a number exactly when the step count is not 1; with one step the source divides by zero and gets no number |
| Controller.ProgressRange | script.js:345 | progress is 0 at step 1 and 100 at the last step, and strictly increases with the step number in between |
| Controller.Refilter | script.js:350-358 | after re-filtering, a block is active iff its tag equals the selected persona |
| Controller.RefilterOneActive | script.js:350-358 | when blocks have distinct tags, re-filtering leaves the selected persona's block as the one and only active block |
| Controller.GoToStep | script.js:321-348 | after `goToStep(k)` the current step is `k` and only the first step numbered `k` is visible; prev is hidden iff `k = 1`; next is hidden and submit shown iff `k` is the last step; progress is that of `k`; blocks are re-filtered iff `k = 2`; nothing else changes |
| Controller.Next | script.js:298-348 | next advances one step iff the current step validates. On success only the following step is shown, the buttons and progress are those of that step, and the question blocks keep their tags and are re-filtered only when the new step is 2. On failure only the indicators and the one notification change. Either way every answer survives, and nothing outside the steps, blocks, labels, position, controls and notices changes |
| Controller.Prev | script.js:306-348 | prev always moves one step back without validating: no notification, and no label, indicator or answer changes. Only the previous step is shown, the buttons and progress are those of that step, and the question blocks keep their tags and are re-filtered only when the new step is 2 |
| Controller.SelectPersona | script.js:277-295 | a toggle sets the persona to its tag and leaves exactly that toggle active; blocks are re-filtered iff the form is on step 2 |
| Controller.Submit | script.js:313-318 | the submit handler posts only when the current step validates; it then disables the button, relabels it `Submitting...` and remembers the original label and the assembled record; the page keeps validation's indicators and nothing else changes |
| Controller.Resolve | script.js:455-490 | only an accepted reply hides the form and the progress bar and shows the thank-you title, subtitle and notice; any rejection shows one error notice, re-enables the button with its original label, and changes nothing else |
| Controller.GoToStepInv | script.js:321-348 | `goToStep` to any existing step yields a session satisfying the invariant |
| Controller.InitInv | script.js:360-361 | a freshly wired form is on step 1 with the default persona, prev hidden, and satisfies the invariant |
| Controller.NextInv | script.js:339-341 | next, which fires only while shown, keeps the current step within the steps and preserves the invariant |
| Controller.PrevInv | script.js:339 | prev, which fires only while shown, keeps the current step within the steps and preserves the invariant |
| Controller.SelectPersonaInv | script.js:277-295 | a persona toggle preserves the invariant |
| Controller.SubmitInv | script.js:313-318 | the submit handler preserves the invariant |
| Controller.ResolveInv | script.js:485-490 | settling the request, either way, preserves the invariant |
| Controller.OneVisibleStep | script.js:324-331 | in every reachable session exactly one step is visible, and it is the step `validateStep(currentStep)` looks up |
| Controller.ProgressAtEnds | script.js:345 | in every reachable session with at least two steps, the bar reads 0 on step 1 and 100 on the last step |
| Controller.Step2BlocksFollowPersona | script.js:333-336 | on step 2 the active blocks are exactly the persona's; entering step 2 by next or prev re-filters them |
| Controller.FailedSubmissionRestores | script.js:421-423 | a submission that fails adds exactly one notification and restores the button to its state before submitting; the step, persona and answers stay, so a retry posts the same record |
| Controller.SubmissionSucceedsIff | script.js:455-484 | the posted record is the one assembled at submit time; the flow ends iff the reply passes every gate |
| Controller.SubmittedIsFinal | script.js:473-474 | after success the form is hidden, so no handler can fire again |
| Controller.LateToggleLeavesBlocksStale | script.js:290-293 | on step 3 a toggle changes the persona while the old persona's block stays active |
| Theme.NameShape | script.js:242 | a custom-property body has no ASCII capitals and is one character longer than the key per capital |
| Theme.CamelizeInverts | script.js:242 | a key without hyphens can be recovered from its custom-property body |
| Theme.CssVarNameInjective | script.js:242 | two hyphen-free colour keys never share a custom-property name |
| Theme.PrimaryBlueExample | script.js:241-242 | `colorPrimaryBlue` becomes `--color-primary-blue` |

## Left out

- Content loading (`loadContent`, `populateContent`, `setElementText`) is left out. It fetches page copy and copies strings into the DOM, with no behaviour beyond that.
- `applyColors`' `setProperty` calls and its fallback colours are left out. Only the name conversion is modelled.
- `parseJson` and `JSON.parse` are left out. They belong to the JavaScript runtime. A reply records only "does not parse" with the error text, or the parsed `status` and `message`.
- The `fetch` transport, CORS mode and headers are left out. A transport failure and a failing body read both become `TransportFailure`.
- `JSON.stringify` of the record is left out. The model stops at the key/value record. A `null` from `formData.get` is `Single(None)`.
- The notification surface's 5-second timer and close button are left out. They are timers and UI. The model records each notification shown, with its severity.
- The scroll-fade observer and the particle animation are left out. They are decorative: canvas, randomness, floating point.
- `initFormLogic` returns early when there is no form. The next and prev handlers are attached only when their buttons exist, and the persona handler is attached to each `.btn-toggle` found. The submit handler passes the submit button on unchecked, so without one `submitForm` would throw a TypeError. The model assumes the form, buttons and progress bar all exist.
- The model assumes `[required], [data-required="true"]` matches only form controls. A non-control element with `data-required="true"` has no `value`, and the source would throw a TypeError on it.
- `data-step` is compared as a string in the source. The model compares it as an integer.
- Group names with characters that break the `input[name="…"]` selector are not modelled.
- The model's `FormData` ignores disabled controls, `<select>` without options, file inputs, and controls outside the steps. Every named control of a step contributes its value. A checkbox or radio contributes only when checked.
- The submit event is modelled as coming from an enabled submit button. The source's handler checks neither the current step nor an in-flight request; the disabled button is what prevents a second request. Submission by the Enter key is not modelled separately.
- Controller.Progress: uses exact rationals. The source computes the percentage in floating point. The ends, 0 and 100, are exact in both.
- The success notification's emoji is garbled (mis-decoded) in the source. The model uses the intended U+2705 character.
- The `message` of a server rejection is recorded only when it is truthy, as the string `new Error` makes of it. That string can be empty (an empty array), and the notification then ends after `Submission failed: `. How other values convert to strings is not modelled.
- Console logging is left out.
- The model assumes every persona toggle carries `data-persona`. A toggle without it would set `selectedPersona` to `undefined` (script.js:280), and `JSON.stringify` would then drop the `persona` key from the posted body.
- The model assumes the notification box and its text and close elements exist. Without them `showMessage` returns without showing anything (script.js:502), while the model still records the notification.
- Theme.Lower: lower-cases ASCII letters only, where `toLowerCase` also lowers other letters. Every colour key at script.js:226-236 is ASCII.

=== FILE: controller.dfy ===
/** The survey form controller of `initFormLogic` (script.js): the module
    state `currentStep` and `selectedPersona`, `goToStep`,
    `updatePersonaQuestions`, and the handlers of the persona toggles, the
    next and previous buttons and the form's submit event, followed by the
    settlement of the submission request.

    Every handler is a function from the session before the event to the
    session after it. A handler fires only for a control the user can reach:
    a shown button, an enabled submit button, a form that is not hidden. */
module Controller {
  import opened Form
  import opened Validation
  import opened Payload
  import opened Submission

  /** Visibility of the navigation buttons and the progress bar's width in
      percent (`None` where the source divides zero by zero or by zero and
      gets no number). */
  datatype Controls = Controls(prevShown: bool, nextShown: bool, submitShown: bool, progress: Option<real>)

  datatype Button = Button(disabled: bool, caption: string)

  /** A `.btn-toggle` persona button: its `data-persona` tag and whether it
      carries `active` (and `aria-selected="true"`). */
  datatype Toggle = Toggle(persona: string, active: bool)

  /** Where the submission stands. While a request is in flight the original
      label of the submit button and the posted record are remembered. */
  datatype Phase = Editing | InFlight(originalLabel: string, request: Record) | Submitted

  datatype Session = Session(
    steps: seq<Step>,
    blocks: seq<Block>,
    labels: map<string, bool>,
    toggles: seq<Toggle>,
    persona: string,
    current: int,
    controls: Controls,
    submit: Button,
    phase: Phase,
    formShown: bool,
    progressShown: bool,
    title: string,
    subtitle: string,
    notices: seq<Notice>)

  const DefaultPersona := "creator"
  const BusyLabel := "Submitting..."

  /** `((k - 1) / (total - 1)) * 100`; with one step the division has no
      numeric result. */
  function Progress(k: int, total: int): (p: Option<real>)
    ensures p.Some? <==> total != 1
  {
    if total == 1 then None else Some(((k - 1) as real / (total - 1) as real) * 100.0)
  }

  /** The progress bar reads 0 on the first step and 100 on the last, lies
      between the two in between, and grows with every step forward. */
  lemma ProgressRange(j: int, k: int, total: int)
    requires 2 <= total && 1 <= j < k <= total
    ensures Progress(1, total) == Some(0.0)
    ensures Progress(total, total) == Some(100.0)
    ensures 0.0 <= Progress(j, total).value < Progress(k, total).value <= 100.0
  {
    var d := (total - 1) as real;
    DivLess((j - 1) as real, (k - 1) as real, d);
    DivLess((k - 1) as real, d + 1.0, d);
    assert d / d == 1.0;
  }

  lemma DivLess(a: real, b: real, d: real)
    requires 0.0 <= a < b && d > 0.0
    ensures 0.0 <= a / d < b / d
  {
    assert (a / d) * d == a;
    assert (b / d) * d == b;
  }

  /** What `goToStep(k)` leaves the buttons and the bar showing. */
  function ControlsAt(k: int, total: int): Controls {
    Controls(k != 1, k != total, k == total, Progress(k, total))
  }

  /** `updatePersonaQuestions`: a block is active iff its tag is the persona. */
  predicate Filtered(blocks: seq<Block>, persona: string) {
    forall i :: 0 <= i < |blocks| ==> (blocks[i].active <==> blocks[i].tag == persona)
  }

  function Refilter(blocks: seq<Block>, persona: string): (r: seq<Block>)
    ensures |r| == |blocks| && Filtered(r, persona)
    ensures forall i :: 0 <= i < |blocks| ==> r[i].tag == blocks[i].tag
  {
    seq(|blocks|, i requires 0 <= i < |blocks| => blocks[i].(active := blocks[i].tag == persona))
  }

  /** After re-filtering, when every block has its own tag, the block of the
      selected persona is the one and only active block; a persona without a
      block leaves none active. */
  lemma RefilterOneActive(blocks: seq<Block>, persona: string, b: nat)
    requires forall i, j :: 0 <= i < j < |blocks| ==> blocks[i].tag != blocks[j].tag
    requires b < |blocks| && blocks[b].tag == persona
    ensures Refilter(blocks, persona)[b].active
    ensures forall i :: 0 <= i < |blocks| && i != b ==> !Refilter(blocks, persona)[i].active
  {
  }

  /** `goToStep(k)`. There is no bounds check: `k` outside the steps leaves
      no step visible. */
  function GoToStep(s: Session, k: int): (r: Session)
    ensures r.current == k
    ensures |r.steps| == |s.steps|
    ensures forall i :: 0 <= i < |s.steps| ==>
              r.steps[i] == s.steps[i].(active := FindStep(s.steps, k) == Some(i))
    ensures !r.controls.prevShown <==> k == 1
    ensures !r.controls.nextShown <==> k == |s.steps|
    ensures r.controls.submitShown <==> k == |s.steps|
    ensures r.controls.progress == Progress(k, |s.steps|)
    ensures k == 2 ==> |r.blocks| == |s.blocks| && Filtered(r.blocks, s.persona)
                       && forall i :: 0 <= i < |s.blocks| ==> r.blocks[i].tag == s.blocks[i].tag
    ensures k != 2 ==> r.blocks == s.blocks
    ensures r == s.(steps := r.steps, blocks := r.blocks, current := k, controls := r.controls)
  {
    var found := FindStep(s.steps, k);
    var steps' := seq(|s.steps|, i requires 0 <= i < |s.steps| => s.steps[i].(active := found == Some(i)));
    var blocks' := if k == 2 then Refilter(s.blocks, s.persona) else s.blocks;
    s.(steps := steps', blocks := blocks', current := k, controls := ControlsAt(k, |s.steps|))
  }

  /** The session after `validateStep(currentStep)`: indicators updated and
      the notification, if any, shown. */
  function AfterValidation(s: Session, v: Validation): Session {
    s.(steps := v.steps, labels := v.labels, notices := s.notices + v.notices)
  }

  /** The next button's handler: advance only when the current step validates. */
  function Next(s: Session): (r: Session)
    requires s.formShown && s.controls.nextShown
    ensures var v := ValidateStep(s.steps, s.blocks, s.labels, s.current);
            && (!v.ok ==> r == AfterValidation(s, v))
            && r.notices == s.notices + v.notices
            // answers typed so far survive, whichever way it goes
            && SameAnswers(s.steps, r.steps)
            && r.labels == v.labels
            && (v.ok ==> && r.current == s.current + 1
                         // the following step alone is shown, with its buttons and progress
                         && (forall i :: 0 <= i < |s.steps| ==>
                               (r.steps[i].active <==> FindStep(s.steps, s.current + 1) == Some(i)))
                         && r.controls == ControlsAt(s.current + 1, |s.steps|)
                         // the question blocks keep their tags; only step 2 re-filters them
                         && |r.blocks| == |s.blocks|
                         && (forall i :: 0 <= i < |s.blocks| ==> r.blocks[i].tag == s.blocks[i].tag)
                         && (s.current + 1 == 2 ==> Filtered(r.blocks, s.persona))
                         && (s.current + 1 != 2 ==> r.blocks == s.blocks))
            // only the steps, blocks, labels, position, controls and notices change
            && r == s.(steps := r.steps, blocks := r.blocks, labels := r.labels, current := r.current,
                       controls := r.controls, notices := r.notices)
  {
    var v := ValidateStep(s.steps, s.blocks, s.labels, s.current);
    ValidateKeepsAnswers(s.steps, s.blocks, s.labels, s.current);
    FindStepSameIds(v.steps, s.steps, s.current + 1);
    var s' := AfterValidation(s, v);
    if v.ok then GoToStep(s', s.current + 1) else s'
  }

  /** The previous button's handler: always one step back. */
  function Prev(s: Session): (r: Session)
    requires s.formShown && s.controls.prevShown
    ensures r.current == s.current - 1
    // no validation: no notice, no indicator and no answer changes
    ensures r.notices == s.notices && r.labels == s.labels
    ensures |r.steps| == |s.steps| && forall i :: 0 <= i < |s.steps| ==> r.steps[i].fields == s.steps[i].fields
    // the previous step alone is shown, with its buttons and progress
    ensures forall i :: 0 <= i < |s.steps| ==> (r.steps[i].active <==> FindStep(s.steps, s.current - 1) == Some(i))
    ensures r.controls == ControlsAt(s.current - 1, |s.steps|)
    // the question blocks keep their tags; only step 2 re-filters them
    ensures |r.blocks| == |s.blocks| && forall i :: 0 <= i < |s.blocks| ==> r.blocks[i].tag == s.blocks[i].tag
    ensures s.current - 1 == 2 ==> Filtered(r.blocks, s.persona)
    ensures s.current - 1 != 2 ==> r.blocks == s.blocks
    ensures r == s.(steps := r.steps, blocks := r.blocks, current := r.current, controls := r.controls)
  {
    GoToStep(s, s.current - 1)
  }

  /** A persona toggle's handler: the session persona becomes the button's
      tag, the button becomes the only active toggle, and the question blocks
      are re-filtered only when the form is on step 2. */
  function SelectPersona(s: Session, t: nat): (r: Session)
    requires s.formShown && t < |s.toggles|
    ensures r.persona == s.toggles[t].persona
    ensures |r.toggles| == |s.toggles|
    ensures forall i :: 0 <= i < |s.toggles| ==>
              r.toggles[i].persona == s.toggles[i].persona && (r.toggles[i].active <==> i == t)
    ensures s.current == 2 ==> |r.blocks| == |s.blocks| && Filtered(r.blocks, r.persona)
                               && forall i :: 0 <= i < |s.blocks| ==> r.blocks[i].tag == s.blocks[i].tag
    ensures s.current != 2 ==> r.blocks == s.blocks
    ensures r == s.(persona := r.persona, toggles := r.toggles, blocks := r.blocks)
  {
    var p := s.toggles[t].persona;
    var toggles' := seq(|s.toggles|, i requires 0 <= i < |s.toggles| => s.toggles[i].(active := i == t));
    var blocks' := if s.current == 2 then Refilter(s.blocks, p) else s.blocks;
    s.(persona := p, toggles := toggles', blocks := blocks')
  }

  /** The form's submit handler: when the current step validates, the button
      is disabled and relabelled, and the record is posted. */
  function Submit(s: Session): (r: Session)
    requires s.formShown && !s.submit.disabled
    ensures var v := ValidateStep(s.steps, s.blocks, s.labels, s.current);
            && (v.ok ==> r.phase == InFlight(s.submit.caption, Assemble(s.steps, s.persona))
                         && r.submit == Button(true, BusyLabel))
            && (!v.ok ==> r == AfterValidation(s, v))
            && r.notices == s.notices + v.notices
            // the page keeps validation's indicators and everything else
            && r.steps == v.steps && r.labels == v.labels
            && r == s.(steps := v.steps, labels := v.labels, notices := r.notices, phase := r.phase, submit := r.submit)
  {
    var v := ValidateStep(s.steps, s.blocks, s.labels, s.current);
    var s' := AfterValidation(s, v);
    if v.ok then s'.(phase := InFlight(s.submit.caption, Assemble(s.steps, s.persona)), submit := Button(true, BusyLabel))
    else s'
  }

  /** The settlement of the request: on acceptance the form is replaced by the
      thank-you text; on any rejection one error is shown and the button is
      restored, and nothing else changes. */
  function Resolve(s: Session, reply: Reply): (r: Session)
    requires s.phase.InFlight?
    ensures r.phase.Submitted? <==> Judge(reply).Accepted?
    ensures r.phase.Submitted? ==>
              && !r.formShown && !r.progressShown
              && r.title == ThankYouTitle && r.subtitle == ThankYouSubtitle
              && r.notices == s.notices + [Notice(SuccessMessage, Success)]
    ensures r.phase.Editing? ==>
              && r == s.(phase := Editing, submit := Button(false, s.phase.originalLabel), notices := r.notices)
              && |r.notices| == |s.notices| + 1 && r.notices[..|s.notices|] == s.notices
              && r.notices[|s.notices|].severity == Error
    ensures r.current == s.current && r.steps == s.steps && r.persona == s.persona
  {
    match Judge(reply)
    case Accepted =>
      s.(phase := Submitted, formShown := false, progressShown := false,
         title := ThankYouTitle, subtitle := ThankYouSubtitle,
         notices := s.notices + [Notice(SuccessMessage, Success)])
    case Rejected(reason) =>
      s.(phase := Editing, submit := Button(false, s.phase.originalLabel),
         notices := s.notices + [FailureNotice(reason)])
  }

  /** `initFormLogic`: the module state starts at step 1 with the default
      persona, and `goToStep(1)` lays out the first step. */
  function Init(steps: seq<Step>, blocks: seq<Block>, labels: map<string, bool>, toggles: seq<Toggle>,
                submitLabel: string, title: string, subtitle: string): Session
  {
    var s := Session(steps, blocks, labels, toggles, DefaultPersona, 1,
                     Controls(false, false, false, None), Button(false, submitLabel),
                     Editing, true, true, title, subtitle, []);
    GoToStep(s, 1)
  }

  /** The phase agrees with what the page shows. */
  predicate PhaseShown(s: Session) {
    match s.phase
    case Editing => s.formShown && !s.submit.disabled
    case InFlight(_, _) => s.formShown && s.submit == Button(true, BusyLabel)
    case Submitted =>
      && !s.formShown && !s.progressShown
      && s.title == ThankYouTitle && s.subtitle == ThankYouSubtitle
  }

  /** What every reachable session satisfies. */
  predicate Inv(s: Session) {
    && WellFormed(s.steps, s.blocks)
    && 1 <= s.current <= |s.steps|
    && s.controls == ControlsAt(s.current, |s.steps|)
    && (forall i :: 0 <= i < |s.steps| ==> s.steps[i].active == (i + 1 == s.current))
    && (s.current == 2 ==> Filtered(s.blocks, s.persona))
    && PhaseShown(s)
  }

  lemma GoToStepInv(s: Session, k: int)
    requires WellFormed(s.steps, s.blocks) && PhaseShown(s)
    requires 1 <= k <= |s.steps|
    ensures Inv(GoToStep(s, k))
  {
    var r := GoToStep(s, k);
    FindStepWellFormed(s.steps, s.blocks, k);
    assert forall i :: 0 <= i < |s.steps| ==> r.steps[i].id == s.steps[i].id && r.steps[i].fields == s.steps[i].fields;
  }

  /** Validation changes no step's number, controls or ownership. */
  lemma AfterValidationWellFormed(s: Session)
    requires Inv(s)
    ensures var r := AfterValidation(s, ValidateStep(s.steps, s.blocks, s.labels, s.current));
            WellFormed(r.steps, r.blocks) && PhaseShown(r) && r.current == s.current
            && r.blocks == s.blocks && r.controls == s.controls
            && forall i :: 0 <= i < |s.steps| ==> r.steps[i].active == s.steps[i].active
  {
    var v := ValidateStep(s.steps, s.blocks, s.labels, s.current);
    FindStepWellFormed(s.steps, s.blocks, s.current);
    var k := s.current - 1;
    forall i, j | 0 <= i < |v.steps| && 0 <= j < |v.steps[i].fields|
      ensures OwnerExists(v.steps[i].fields[j], s.blocks)
    {
      if i == k {
        ValidateMarksEachField(s.steps, s.blocks, s.labels, s.current, k, j);
      }
    }
  }

  /** A freshly wired form is on step 1, the only visible step, with no way back. */
  lemma InitInv(steps: seq<Step>, blocks: seq<Block>, labels: map<string, bool>, toggles: seq<Toggle>,
                submitLabel: string, title: string, subtitle: string)
    requires WellFormed(steps, blocks) && |steps| >= 1
    ensures var s := Init(steps, blocks, labels, toggles, submitLabel, title, subtitle);
            && Inv(s) && s.current == 1 && !s.controls.prevShown
            && s.persona == DefaultPersona && s.phase == Editing
  {
    var s0 := Session(steps, blocks, labels, toggles, DefaultPersona, 1,
                      Controls(false, false, false, None), Button(false, submitLabel),
                      Editing, true, true, title, subtitle, []);
    GoToStepInv(s0, 1);
  }

  /** Next keeps the session within the steps: it is shown only before the
      last step. */
  lemma NextInv(s: Session)
    requires Inv(s) && s.formShown && s.controls.nextShown
    ensures Inv(Next(s))
  {
    AfterValidationWellFormed(s);
    var v := ValidateStep(s.steps, s.blocks, s.labels, s.current);
    var a := AfterValidation(s, v);
    if v.ok {
      assert Inv(GoToStep(a, s.current + 1)) by {
        GoToStepInv(a, s.current + 1);
      }
      assert Next(s) == GoToStep(a, s.current + 1);
    } else {
      assert Next(s) == a;
    }
  }

  /** Prev keeps the session within the steps: it is hidden on step 1. */
  lemma PrevInv(s: Session)
    requires Inv(s) && s.formShown && s.controls.prevShown
    ensures Inv(Prev(s))
  {
    GoToStepInv(s, s.current - 1);
  }

  lemma SelectPersonaInv(s: Session, t: nat)
    requires Inv(s) && s.formShown && t < |s.toggles|
    ensures Inv(SelectPersona(s, t))
  {
  }

  lemma SubmitInv(s: Session)
    requires Inv(s) && s.formShown && !s.submit.disabled
    ensures Inv(Submit(s))
  {
    AfterValidationWellFormed(s);
  }

  lemma ResolveInv(s: Session, reply: Reply)
    requires Inv(s) && s.phase.InFlight?
    ensures Inv(Resolve(s, reply))
  {
  }

  /** In every reachable session exactly one step is visible, and it is the
      step `validateStep(currentStep)` looks up. */
  lemma OneVisibleStep(s: Session)
    requires Inv(s)
    ensures FindStep(s.steps, s.current) == Some(s.current - 1)
    ensures s.steps[s.current - 1].active
    ensures forall i :: 0 <= i < |s.steps| && s.steps[i].active ==> i == s.current - 1
  {
    FindStepWellFormed(s.steps, s.blocks, s.current);
  }

  /** In every reachable session the progress bar reads 0 on step 1 and 100
      on the last step (when there are at least two). */
  lemma ProgressAtEnds(s: Session)
    requires Inv(s) && |s.steps| >= 2
    ensures s.current == 1 ==> s.controls.progress == Some(0.0)
    ensures s.current == |s.steps| ==> s.controls.progress == Some(100.0)
  {
    ProgressRange(1, |s.steps|, |s.steps|);
  }

  /** While the form is on step 2, the active question blocks are exactly
      those of the selected persona; entering step 2 by either button
      re-filters them. */
  lemma Step2BlocksFollowPersona(s: Session)
    requires Inv(s) && s.formShown
    ensures s.current == 2 ==> Filtered(s.blocks, s.persona)
    ensures s.controls.nextShown && s.current == 1 && ValidateStep(s.steps, s.blocks, s.labels, 1).ok ==>
              Filtered(Next(s).blocks, Next(s).persona)
    ensures s.controls.prevShown && s.current == 3 ==> Filtered(Prev(s).blocks, Prev(s).persona)
  {
  }

  /** A failed submission is fully undone apart from its one notification:
      the button is back to its label and enabled, the form stays on the same
      step with the same answers, and the user can submit again. */
  lemma FailedSubmissionRestores(s: Session, reply: Reply)
    requires Inv(s) && s.phase.Editing?
    requires ValidateStep(s.steps, s.blocks, s.labels, s.current).ok
    requires Judge(reply).Rejected?
    ensures var r := Resolve(Submit(s), reply);
            && r.phase == Editing && r.submit == s.submit && r.current == s.current
            && r.persona == s.persona && r.formShown
            && r.notices == s.notices + [FailureNotice(Judge(reply).reason)]
            && Inv(r)
            && SameAnswers(s.steps, r.steps)
            && Assemble(r.steps, r.persona) == Assemble(s.steps, s.persona)
  {
    var v := ValidateStep(s.steps, s.blocks, s.labels, s.current);
    var s1 := Submit(s);
    assert v.notices == [];
    assert s1.notices == s.notices;
    assert s1.phase == InFlight(s.submit.caption, Assemble(s.steps, s.persona));
    SubmitInv(s);
    ResolveInv(s1, reply);
    var r := Resolve(s1, reply);
    assert r.submit == Button(false, s.submit.caption);
    ValidateKeepsAnswers(s.steps, s.blocks, s.labels, s.current);
    assert r.steps == v.steps;
    AssembleIgnoresIndicators(s.steps, r.steps, s.persona);
  }

  /** Only a fully valid reply ends the flow; the posted record is the one
      assembled from the answers and persona at the moment of submission. */
  lemma SubmissionSucceedsIff(s: Session, reply: Reply)
    requires Inv(s) && s.phase.Editing?
    requires ValidateStep(s.steps, s.blocks, s.labels, s.current).ok
    ensures Submit(s).phase == InFlight(s.submit.caption, Assemble(s.steps, s.persona))
    ensures Resolve(Submit(s), reply).phase.Submitted? <==>
              && reply.HttpReply? && IsOk(reply.status) && LooksLikeJson(reply.body)
              && reply.parse.Parsed? && reply.parse.status == Some("success")
  {
  }

  /** Once submitted, the form is hidden, so no handler can fire again. */
  lemma SubmittedIsFinal(s: Session)
    requires Inv(s) && s.phase.Submitted?
    ensures !s.formShown
  {
  }

  /** Toggling the persona away from step 2 does not re-filter the blocks:
      here, on step 3, the session persona becomes `business` while the
      `creator` block stays the active one, and a later submission posts
      `business` answers that step 2 never validated. */
  lemma LateToggleLeavesBlocksStale()
    ensures var steps := [Step(1, [], false), Step(2, [], false), Step(3, [], true)];
            var blocks := [Block("creator", true), Block("business", false)];
            var toggles := [Toggle("creator", true), Toggle("business", false)];
            var s := Session(steps, blocks, map[], toggles, "creator", 3,
                             ControlsAt(3, 3), Button(false, "Submit"), Editing,
                             true, true, "Survey", "Tell us", []);
            var r := SelectPersona(s, 1);
            && Inv(s) && Inv(r) && r.persona == "business"
            && r.blocks[0].active && !r.blocks[1].active
            && !Filtered(r.blocks, r.persona)
  {
    var steps := [Step(1, [], false), Step(2, [], false), Step(3, [], true)];
    var blocks := [Block("creator", true), Block("business", false)];
    var toggles := [Toggle("creator", true), Toggle("business", false)];
    var s := Session(steps, blocks, map[], toggles, "creator", 3,
                     ControlsAt(3, 3), Button(false, "Submit"), Editing,
                     true, true, "Survey", "Tell us", []);
    var r := SelectPersona(s, 1);
    assert r.blocks[0].tag != "business";
  }
}

=== FILE: form.dfy ===
/** The survey form's DOM, as plain data.

    A form is a sequence of steps (the `.form-step` elements); each step holds
    its form controls in document order. Controls nested inside a persona
    question block (`.persona-questions`) name that block by its position in
    the page's list of blocks. Error indicators (the `input-error` class) are
    kept on the control itself, or, for checkbox and radio groups, on the
    group's label, which is looked up by the id `<group name>_label`. */
module Form {

  datatype Option<T> = None | Some(value: T)

  /** The `type` of a control as far as validation and `FormData` care:
      text-like controls (text, email, textarea, select) versus the two
      kinds of choice inputs. */
  datatype Kind = TextLike | Checkbox | Radio

  /** One form control. `required` is the `required` attribute; `dataRequired`
      is true iff the control carries `data-required="true"`. `owner` is the
      closest enclosing persona question block, if any. `error` is whether the
      control currently carries the error indicator. */
  datatype Field = Field(
    name: string,
    kind: Kind,
    value: string,
    checked: bool,
    required: bool,
    dataRequired: bool,
    owner: Option<nat>,
    error: bool)
  {
    predicate IsChoice() {
      kind == Checkbox || kind == Radio
    }

    /** Matches the CSS selector `:checked` for an input. */
    predicate IsChecked() {
      IsChoice() && checked
    }
  }

  /** A `.form-step` element: its `data-step` number, its controls in document
      order, and whether it carries the `active` class (is the visible step). */
  datatype Step = Step(id: int, fields: seq<Field>, active: bool)

  /** A `.persona-questions` block: its `data-persona-questions` tag and
      whether it is active (shown and validated). */
  datatype Block = Block(tag: string, active: bool)

  /** Two pages hold the same answers: the same steps with the same controls,
      differing at most in the controls' error indicators. */
  predicate SameAnswers(a: seq<Step>, b: seq<Step>) {
    && |a| == |b|
    && forall k :: 0 <= k < |a| ==>
         && a[k].id == b[k].id
         && |a[k].fields| == |b[k].fields|
         && forall j :: 0 <= j < |a[k].fields| ==> a[k].fields[j].(error := false) == b[k].fields[j].(error := false)
  }

  /** The `type` argument of the notification surface, as the form uses it. */
  datatype Severity = Success | Error

  /** One message shown on the notification surface. */
  datatype Notice = Notice(text: string, severity: Severity)

  /** `document.querySelector('.form-step[data-step="n"]')`: the first step,
      in document order, whose number is `n`. */
  function FindStep(steps: seq<Step>, n: int): (r: Option<nat>)
    ensures r.Some? ==> r.value < |steps| && steps[r.value].id == n
    ensures r.Some? ==> forall j :: 0 <= j < r.value ==> steps[j].id != n
    ensures r.None? ==> forall j :: 0 <= j < |steps| ==> steps[j].id != n
  {
    FindStepFrom(steps, n, 0)
  }

  function FindStepFrom(steps: seq<Step>, n: int, i: nat): (r: Option<nat>)
    requires i <= |steps|
    ensures r.Some? ==> i <= r.value < |steps| && steps[r.value].id == n
    ensures r.Some? ==> forall j :: i <= j < r.value ==> steps[j].id != n
    ensures r.None? ==> forall j :: i <= j < |steps| ==> steps[j].id != n
    decreases |steps| - i
  {
    if i == |steps| then None
    else if steps[i].id == n then Some(i)
    else FindStepFrom(steps, n, i + 1)
  }

  /** The page as the form's markup lays it out: steps are numbered 1, 2, ...
      in document order, and every block a control names exists. */
  predicate WellFormed(steps: seq<Step>, blocks: seq<Block>) {
    && (forall i :: 0 <= i < |steps| ==> steps[i].id == i + 1)
    && (forall i, j :: 0 <= i < |steps| && 0 <= j < |steps[i].fields| ==>
          OwnerExists(steps[i].fields[j], blocks))
  }

  predicate OwnerExists(f: Field, blocks: seq<Block>) {
    f.owner.Some? ==> f.owner.value < |blocks|
  }

  /** On a well-formed page, step `n` is found exactly when it is one of the
      numbered steps, and it sits at position `n - 1`. */
  lemma FindStepWellFormed(steps: seq<Step>, blocks: seq<Block>, n: int)
    requires WellFormed(steps, blocks)
    ensures FindStep(steps, n) == if 1 <= n <= |steps| then Some(n - 1) else None
  {
    if 1 <= n <= |steps| {
      assert steps[n - 1].id == n;
    }
  }
}

=== FILE: payload.dfy ===
/** The record `submitForm` (script.js) posts: a few base answers, the
    selected persona, and the selected persona's own answers, read from the
    form through `FormData`. */
module Payload {
  import opened Form

  /** One value of the posted JSON object: the result of `formData.get`
      (a string, or null when no entry has that name) or of
      `formData.getAll` (the values of the entries of that name). */
  datatype Value = Single(text: Option<string>) | Multi(texts: seq<string>)

  type Record = map<string, Value>

  /** An entry `FormData` collects: a name and a value. */
  datatype Entry = Entry(name: string, value: string)

  /** A key a persona adds to the record, and whether it collects every
      selected value or only the first. */
  datatype Slot = Slot(key: string, multi: bool)

  const BaseKeys: set<string> := {"name", "email", "environment", "message", "persona"}

  /** The persona tags `submitForm` recognises; any other tag is `Unknown`. */
  datatype Persona = Creator | Business | Enthusiast | Unknown

  function Classify(tag: string): Persona {
    if tag == "creator" then Creator
    else if tag == "business" then Business
    else if tag == "enthusiast" then Enthusiast
    else Unknown
  }

  /** The keys each persona adds, in the order the source adds them. */
  function PersonaSlots(p: Persona): (ss: seq<Slot>)
    ensures forall i :: 0 <= i < |ss| ==> ss[i].key in PersonaKeys(p)
  {
    match p
    case Creator =>
      [Slot("creator_experience", false), Slot("creator_income", false), Slot("creator_challenges", true)]
    case Business =>
      [Slot("business_type", false), Slot("business_reach", false), Slot("business_goals", true)]
    case Enthusiast =>
      [Slot("enthusiast_interest", true), Slot("enthusiast_motivation", false)]
    case Unknown => []
  }

  /** The keys the persona adds to the record. */
  function PersonaKeys(p: Persona): set<string> {
    match p
    case Creator => {"creator_experience", "creator_income", "creator_challenges"}
    case Business => {"business_type", "business_reach", "business_goals"}
    case Enthusiast => {"enthusiast_interest", "enthusiast_motivation"}
    case Unknown => {}
  }

  /** The key set is exactly the keys of the persona's declared slots. */
  lemma PersonaKeysAreSlotKeys(p: Persona)
    ensures forall k :: k in PersonaKeys(p) <==>
              exists i :: 0 <= i < |PersonaSlots(p)| && PersonaSlots(p)[i].key == k
  {
    var ss := PersonaSlots(p);
    forall k | k in PersonaKeys(p)
      ensures exists i :: 0 <= i < |ss| && ss[i].key == k
    {
      if k == ss[0].key { assert ss[0].key == k; }
      else if k == ss[1].key { assert ss[1].key == k; }
      else { assert ss[2].key == k; }
    }
  }

  /** A control contributes an entry when it has a name and, for a checkbox
      or radio input, when it is checked. */
  predicate Submits(f: Field) {
    f.name != "" && (!f.IsChoice() || f.checked)
  }

  /** The entries one step's controls contribute, in document order. */
  function FieldEntries(fs: seq<Field>): (r: seq<Entry>)
    ensures forall e :: e in r <==>
              exists j :: 0 <= j < |fs| && Submits(fs[j]) && e == Entry(fs[j].name, fs[j].value)
  {
    if fs == [] then []
    else
      var rest := FieldEntries(fs[1..]);
      assert forall j :: 1 <= j < |fs| ==> fs[j] == fs[1..][j - 1];
      (if Submits(fs[0]) then [Entry(fs[0].name, fs[0].value)] else []) + rest
  }

  /** `new FormData(form)`: the entries of every step, in document order. */
  function Entries(steps: seq<Step>): (r: seq<Entry>)
    ensures forall e :: e in r <==>
              exists k, j :: 0 <= k < |steps| && 0 <= j < |steps[k].fields|
                             && Submits(steps[k].fields[j])
                             && e == Entry(steps[k].fields[j].name, steps[k].fields[j].value)
  {
    if steps == [] then []
    else
      var rest := Entries(steps[1..]);
      assert forall k :: 1 <= k < |steps| ==> steps[k] == steps[1..][k - 1];
      FieldEntries(steps[0].fields) + rest
  }

  /** `formData.get(key)`: the first entry named `key`, or none. */
  function Get(es: seq<Entry>, key: string): (r: Option<string>)
    ensures r.None? <==> forall i :: 0 <= i < |es| ==> es[i].name != key
    ensures r.Some? ==> exists i :: 0 <= i < |es| && es[i] == Entry(key, r.value)
                                    && forall j :: 0 <= j < i ==> es[j].name != key
  {
    if es == [] then None
    else if es[0].name == key then Some(es[0].value)
    else
      var r := Get(es[1..], key);
      assert forall i :: 1 <= i < |es| ==> es[i] == es[1..][i - 1];
      r
  }

  /** `formData.getAll(key)`: the values of the entries named `key`. */
  function GetAll(es: seq<Entry>, key: string): (r: seq<string>)
    ensures forall v :: v in r <==> Entry(key, v) in es
    ensures |r| <= |es|
  {
    if es == [] then []
    else (if es[0].name == key then [es[0].value] else []) + GetAll(es[1..], key)
  }

  /** `FormData` keeps document order: the entries of two runs of controls
      are those of the first run followed by those of the second. */
  lemma {:induction false} FieldEntriesAppend(a: seq<Field>, b: seq<Field>)
    ensures FieldEntries(a + b) == FieldEntries(a) + FieldEntries(b)
  {
    if a == [] {
      assert a + b == b;
    } else {
      var x := if Submits(a[0]) then [Entry(a[0].name, a[0].value)] else [];
      assert (a + b)[0] == a[0];
      assert (a + b)[1..] == a[1..] + b;
      FieldEntriesAppend(a[1..], b);
      calc {
        FieldEntries(a + b);
        x + FieldEntries(a[1..] + b);
        x + (FieldEntries(a[1..]) + FieldEntries(b));
        (x + FieldEntries(a[1..])) + FieldEntries(b);
      }
    }
  }

  /** One control contributes its own entry, if it submits, and nothing else. */
  lemma FieldEntriesOne(f: Field)
    ensures FieldEntries([f]) == if Submits(f) then [Entry(f.name, f.value)] else []
  {
    assert [f][1..] == [];
  }

  /** The same for whole steps: entries follow the steps in document order. */
  lemma {:induction false} EntriesAppend(a: seq<Step>, b: seq<Step>)
    ensures Entries(a + b) == Entries(a) + Entries(b)
  {
    if a == [] {
      assert a + b == b;
    } else {
      Uncons(a, b);
      EntriesCons(a[0], a[1..] + b);
      EntriesCons(a[0], a[1..]);
      EntriesAppend(a[1..], b);
    }
  }

  lemma EntriesCons(st: Step, rest: seq<Step>)
    ensures Entries([st] + rest) == FieldEntries(st.fields) + Entries(rest)
  {
    assert ([st] + rest)[1..] == rest;
  }

  lemma Uncons<T>(a: seq<T>, b: seq<T>)
    requires a != []
    ensures a == [a[0]] + a[1..] && a + b == [a[0]] + (a[1..] + b)
  {
  }

  /** One step contributes the entries of its controls. */
  lemma EntriesOne(st: Step)
    ensures Entries([st]) == FieldEntries(st.fields)
  {
    assert [st][1..] == [];
  }

  /** `getAll` keeps the order and the repeats of the entries: it lists the
      value of each entry of that name, one per entry, in entry order. */
  lemma {:induction false} GetAllAppend(a: seq<Entry>, b: seq<Entry>, key: string)
    ensures GetAll(a + b, key) == GetAll(a, key) + GetAll(b, key)
  {
    if a == [] {
      assert a + b == b;
    } else {
      assert (a + b)[0] == a[0];
      assert (a + b)[1..] == a[1..] + b;
      GetAllAppend(a[1..], b, key);
    }
  }

  /** One entry adds its value to `getAll` of its own name only. */
  lemma GetAllOne(e: Entry, key: string)
    ensures GetAll([e], key) == if e.name == key then [e.value] else []
  {
    assert [e][1..] == [];
  }

  /** `get` looks in the first run of entries before the second. */
  lemma {:induction false} GetAppend(a: seq<Entry>, b: seq<Entry>, key: string)
    ensures Get(a + b, key) == if Get(a, key).Some? then Get(a, key) else Get(b, key)
  {
    if a == [] {
      assert a + b == b;
    } else {
      assert (a + b)[0] == a[0];
      assert (a + b)[1..] == a[1..] + b;
      GetAppend(a[1..], b, key);
    }
  }

  /** `formData.get(key)` is the value of the first submitting control named
      `key` in document order: the earliest step, and within it the earliest
      position. */
  lemma GetFirstControl(steps: seq<Step>, key: string, k: nat, j: nat)
    requires k < |steps| && j < |steps[k].fields|
    requires Submits(steps[k].fields[j]) && steps[k].fields[j].name == key
    requires forall k', j' :: 0 <= k' < |steps| && 0 <= j' < |steps[k'].fields|
                              && (k' < k || (k' == k && j' < j)) && Submits(steps[k'].fields[j'])
                              ==> steps[k'].fields[j'].name != key
    ensures Get(Entries(steps), key) == Some(steps[k].fields[j].value)
  {
    var fs := steps[k].fields;
    var a := Entries(steps[..k]);
    var b := FieldEntries(fs[..j]);
    var c := FieldEntries(fs[j + 1..]) + Entries(steps[k + 1..]);
    EntriesAround(steps, k, j);
    FieldEntriesOne(fs[j]);
    EarlierStepsLackKey(steps, key, k, j);
    EarlierFieldsLackKey(fs, key, j);
    GetAppend(a, b + ([Entry(key, fs[j].value)] + c), key);
    GetAppend(b, [Entry(key, fs[j].value)] + c, key);
  }

  /** The entries split around the control at position `j` of step `k`. */
  lemma EntriesAround(steps: seq<Step>, k: nat, j: nat)
    requires k < |steps| && j < |steps[k].fields|
    ensures var fs := steps[k].fields;
            Entries(steps) == Entries(steps[..k]) + (FieldEntries(fs[..j]) +
              (FieldEntries([fs[j]]) + (FieldEntries(fs[j + 1..]) + Entries(steps[k + 1..]))))
  {
    var fs := steps[k].fields;
    var a, c := Entries(steps[..k]), Entries(steps[k + 1..]);
    var x, y, z := FieldEntries(fs[..j]), FieldEntries([fs[j]]), FieldEntries(fs[j + 1..]);
    calc {
      Entries(steps);
      { StepsAround(steps, k); }
      a + (FieldEntries(fs) + c);
      { FieldsAround(fs, j); }
      a + ((x + (y + z)) + c);
      a + (x + (y + (z + c)));
    }
  }

  lemma StepsAround(steps: seq<Step>, k: nat)
    requires k < |steps|
    ensures Entries(steps) == Entries(steps[..k]) + (FieldEntries(steps[k].fields) + Entries(steps[k + 1..]))
  {
    SplitAt(steps, k);
    EntriesAppend(steps[..k], [steps[k]] + steps[k + 1..]);
    EntriesAppend([steps[k]], steps[k + 1..]);
    EntriesOne(steps[k]);
  }

  lemma FieldsAround(fs: seq<Field>, j: nat)
    requires j < |fs|
    ensures FieldEntries(fs) == FieldEntries(fs[..j]) + (FieldEntries([fs[j]]) + FieldEntries(fs[j + 1..]))
  {
    SplitAt(fs, j);
    FieldEntriesAppend(fs[..j], [fs[j]] + fs[j + 1..]);
    FieldEntriesAppend([fs[j]], fs[j + 1..]);
  }

  lemma SplitAt<T>(s: seq<T>, j: nat)
    requires j < |s|
    ensures s == s[..j] + ([s[j]] + s[j + 1..])
  {
  }

  lemma EarlierStepsLackKey(steps: seq<Step>, key: string, k: nat, j: nat)
    requires k < |steps|
    requires forall k', j' :: 0 <= k' < |steps| && 0 <= j' < |steps[k'].fields|
                              && (k' < k || (k' == k && j' < j)) && Submits(steps[k'].fields[j'])
                              ==> steps[k'].fields[j'].name != key
    ensures Get(Entries(steps[..k]), key).None?
  {
    var a := Entries(steps[..k]);
    forall i | 0 <= i < |a| ensures a[i].name != key {
      assert a[i] in a;
    }
  }

  lemma EarlierFieldsLackKey(fs: seq<Field>, key: string, j: nat)
    requires j <= |fs|
    requires forall j' :: 0 <= j' < j && Submits(fs[j']) ==> fs[j'].name != key
    ensures Get(FieldEntries(fs[..j]), key).None?
  {
    var b := FieldEntries(fs[..j]);
    forall i | 0 <= i < |b| ensures b[i].name != key {
      assert b[i] in b;
    }
  }

  /** The value a slot takes in the record. */
  function SlotValue(es: seq<Entry>, s: Slot): Value {
    if s.multi then Multi(GetAll(es, s.key)) else Single(Get(es, s.key))
  }

  /** The base answers and the persona tag. The ensures only spell out the
      map for the proofs about `Assemble`; they state no further property. */
  function BaseRecord(es: seq<Entry>, persona: string): (r: Record)
    ensures r.Keys == BaseKeys
    ensures && r["name"] == Single(Get(es, "name"))
            && r["email"] == Single(Get(es, "email"))
            && r["environment"] == Single(Get(es, "environment"))
            && r["message"] == Single(Get(es, "message"))
            && r["persona"] == Single(Some(persona))
  {
    map[
      "name" := Single(Get(es, "name")),
      "email" := Single(Get(es, "email")),
      "environment" := Single(Get(es, "environment")),
      "message" := Single(Get(es, "message")),
      "persona" := Single(Some(persona))]
  }

  /** The posted record for entries `es` and persona tag `persona`. */
  function AssembleEntries(es: seq<Entry>, persona: string): Record {
    var base := BaseRecord(es, persona);
    var ss := PersonaSlots(Classify(persona));
    match Classify(persona)
    case Creator =>
      base[ss[0].key := SlotValue(es, ss[0])][ss[1].key := SlotValue(es, ss[1])][ss[2].key := SlotValue(es, ss[2])]
    case Business =>
      base[ss[0].key := SlotValue(es, ss[0])][ss[1].key := SlotValue(es, ss[1])][ss[2].key := SlotValue(es, ss[2])]
    case Enthusiast =>
      base[ss[0].key := SlotValue(es, ss[0])][ss[1].key := SlotValue(es, ss[1])]
    case Unknown => base
  }

  /** The record holds the base keys and the persona's keys; base keys keep
      their base values and every slot key holds its slot's value. */
  lemma AssembleEntriesShape(es: seq<Entry>, persona: string)
    ensures var r := AssembleEntries(es, persona);
            var ss := PersonaSlots(Classify(persona));
            && r.Keys == BaseKeys + PersonaKeys(Classify(persona))
            && (forall k :: k in BaseKeys ==> r[k] == BaseRecord(es, persona)[k])
            && (forall i :: 0 <= i < |ss| ==> r[ss[i].key] == SlotValue(es, ss[i]))
  {
    var p := Classify(persona);
    var ss := PersonaSlots(p);
    var base := BaseRecord(es, persona);
    var r := AssembleEntries(es, persona);
    PersonaKeysDisjoint(p, if p == Unknown then Creator else Unknown);
    assert r.Keys == BaseKeys + PersonaKeys(p);
  }

  /** `submitForm`'s record for form `steps` and persona tag `persona`. */
  function Assemble(steps: seq<Step>, persona: string): (r: Record)
    ensures r.Keys == BaseKeys + PersonaKeys(Classify(persona))
    ensures && r["name"] == Single(Get(Entries(steps), "name"))
            && r["email"] == Single(Get(Entries(steps), "email"))
            && r["environment"] == Single(Get(Entries(steps), "environment"))
            && r["message"] == Single(Get(Entries(steps), "message"))
            && r["persona"] == Single(Some(persona))
    ensures forall i :: 0 <= i < |PersonaSlots(Classify(persona))| ==>
              r[PersonaSlots(Classify(persona))[i].key] == SlotValue(Entries(steps), PersonaSlots(Classify(persona))[i])
  {
    AssembleEntriesShape(Entries(steps), persona);
    AssembleEntries(Entries(steps), persona)
  }

  /** The record holds the base keys and exactly the selected persona's keys:
      no key of another persona ever appears, and an unknown persona adds none. */
  lemma OnlyActivePersonaKeys(steps: seq<Step>, persona: string, other: Persona)
    requires other != Classify(persona)
    ensures forall k :: k in PersonaKeys(other) ==> k !in Assemble(steps, persona)
    ensures Classify(persona) == Unknown ==> Assemble(steps, persona).Keys == BaseKeys
  {
    PersonaKeysDisjoint(other, Classify(persona));
  }

  /** No two personas share a key, and no persona reuses a base key. */
  lemma PersonaKeysDisjoint(p: Persona, q: Persona)
    requires p != q
    ensures PersonaKeys(p) !! PersonaKeys(q)
    ensures PersonaKeys(p) !! BaseKeys
  {
    match p
    case Creator =>
      assert PersonaKeys(p) !! BaseKeys;
    case Business =>
      assert PersonaKeys(p) !! BaseKeys;
    case Enthusiast =>
      assert PersonaKeys(p) !! BaseKeys;
    case Unknown =>
  }

  /** A multi-valued key collects every selected value of its name, from any
      step, not only the first; and nothing that was not selected. */
  lemma MultiCollectsAll(steps: seq<Step>, persona: string, i: nat, v: string)
    requires i < |PersonaSlots(Classify(persona))| && PersonaSlots(Classify(persona))[i].multi
    ensures var r := Assemble(steps, persona);
            var s := PersonaSlots(Classify(persona))[i];
            r[s.key].Multi? &&
            (v in r[s.key].texts <==>
               exists k, j :: 0 <= k < |steps| && 0 <= j < |steps[k].fields|
                              && Submits(steps[k].fields[j])
                              && steps[k].fields[j].name == s.key && steps[k].fields[j].value == v)
  {
    var es := Entries(steps);
    var s := PersonaSlots(Classify(persona))[i];
    assert v in GetAll(es, s.key) <==> Entry(s.key, v) in es;
  }

  /** A single-valued key is null exactly when no control of that name
      submits a value. */
  lemma SingleNullIff(steps: seq<Step>, key: string)
    ensures Get(Entries(steps), key).None? <==>
              forall k, j :: (0 <= k < |steps| && 0 <= j < |steps[k].fields|
                              && Submits(steps[k].fields[j])) ==> steps[k].fields[j].name != key
  {
    var es := Entries(steps);
    if Get(es, key).Some? {
      var i :| 0 <= i < |es| && es[i] == Entry(key, Get(es, key).value);
      assert es[i] in es;
    } else {
      forall k, j | 0 <= k < |steps| && 0 <= j < |steps[k].fields| && Submits(steps[k].fields[j])
        ensures steps[k].fields[j].name != key
      {
        var e := Entry(steps[k].fields[j].name, steps[k].fields[j].value);
        assert e in es;
      }
    }
  }

  /** Error indicators play no part in `FormData`: pages with the same
      answers give the same entries. */
  lemma {:induction false} EntriesIgnoreIndicators(a: seq<Step>, b: seq<Step>)
    requires SameAnswers(a, b)
    ensures Entries(a) == Entries(b)
  {
    if a != [] {
      FieldEntriesIgnoreIndicators(a[0].fields, b[0].fields);
      assert SameAnswers(a[1..], b[1..]) by {
        forall k | 0 <= k < |a| - 1
          ensures a[1..][k] == a[k + 1] && b[1..][k] == b[k + 1]
        {
        }
      }
      EntriesIgnoreIndicators(a[1..], b[1..]);
    }
  }

  lemma {:induction false} FieldEntriesIgnoreIndicators(fs: seq<Field>, gs: seq<Field>)
    requires |fs| == |gs|
    requires forall j :: 0 <= j < |fs| ==> fs[j].(error := false) == gs[j].(error := false)
    ensures FieldEntries(fs) == FieldEntries(gs)
  {
    if fs != [] {
      assert fs[0].(error := false) == gs[0].(error := false);
      assert fs[0].name == gs[0].name && fs[0].value == gs[0].value;
      assert Submits(fs[0]) == Submits(gs[0]);
      FieldEntriesIgnoreIndicators(fs[1..], gs[1..]);
    }
  }

  /** The posted record depends only on the answers and the persona. */
  lemma AssembleIgnoresIndicators(a: seq<Step>, b: seq<Step>, persona: string)
    requires SameAnswers(a, b)
    ensures Assemble(a, persona) == Assemble(b, persona)
  {
    EntriesIgnoreIndicators(a, b);
  }
}

=== FILE: submission.dfy ===
/** The reply to the survey POST and how `submitForm` (script.js) judges it.

    The transport and the JSON parser are outside the model: a reply is either
    a transport failure (the request or the body read rejected, with the
    error's message) or an HTTP response with its status, its body text and
    what `JSON.parse` would make of that text. */
module Submission {
  import opened Text
  import opened Form

  /** What `JSON.parse(text)` yields: a syntax error with its message, or a
      value whose `status` (when it is a string) and `message` are recorded.
      A `message` is recorded only when it is truthy, and then as the string
      `new Error` makes of it, which can be empty (an empty array is truthy). */
  datatype Parse =
    | SyntaxError(reason: string)
    | Parsed(status: Option<string>, message: Option<string>)

  datatype Reply =
    | TransportFailure(reason: string)
    | HttpReply(status: nat, body: string, parse: Parse)

  /** The outcome of one submission: accepted, or rejected with the text of
      the error the promise chain caught. */
  datatype Verdict = Accepted | Rejected(reason: string)

  const InvalidResponse := "Server returned an invalid response."
  const UnknownError := "An unknown error occurred."
  const SuccessMessage := "\U{2705} Thank you! Your survey has been submitted."
  const ThankYouTitle := "Thank You!"
  const ThankYouSubtitle := "Your voice has been heard. Follow us on social media to stay connected!"

  /** `res.ok`: the status is in the range 200-299. */
  predicate IsOk(status: nat) {
    200 <= status <= 299
  }

  /** The body passes the prefix test: non-empty, starting with `{` or `[`. */
  predicate LooksLikeJson(body: string) {
    |body| > 0 && (body[0] == '{' || body[0] == '[')
  }

  /** The error text `throw new Error(responseData.message || ...)` carries:
      the message whenever it is truthy, the fixed text otherwise. */
  function ServerReason(message: Option<string>): string {
    if message.Some? then message.value else UnknownError
  }

  /** The promise chain of `submitForm` applied to one reply. */
  function Judge(reply: Reply): (v: Verdict)
    // accepted exactly when every gate passes
    ensures v.Accepted? <==>
              && reply.HttpReply?
              && IsOk(reply.status)
              && LooksLikeJson(reply.body)
              && reply.parse.Parsed?
              && reply.parse.status == Some("success")
    // the first gate that fails decides the reason
    ensures reply.TransportFailure? ==> v == Rejected(reply.reason)
    ensures reply.HttpReply? && !IsOk(reply.status) ==>
              v == Rejected("HTTP error! status: " + DecimalString(reply.status))
    ensures reply.HttpReply? && IsOk(reply.status) && !LooksLikeJson(reply.body) ==>
              v == Rejected(InvalidResponse)
    ensures reply.HttpReply? && IsOk(reply.status) && LooksLikeJson(reply.body) && reply.parse.SyntaxError? ==>
              v == Rejected(reply.parse.reason)
    ensures reply.HttpReply? && IsOk(reply.status) && LooksLikeJson(reply.body) && reply.parse.Parsed?
            && reply.parse.status != Some("success") ==>
              v == Rejected(if reply.parse.message.Some? then reply.parse.message.value else UnknownError)
  {
    match reply
    case TransportFailure(reason) => Rejected(reason)
    case HttpReply(status, body, parse) =>
      if !IsOk(status) then Rejected("HTTP error! status: " + DecimalString(status))
      else if !LooksLikeJson(body) then Rejected(InvalidResponse)
      else match parse
        case SyntaxError(reason) => Rejected(reason)
        case Parsed(st, msg) =>
          if st == Some("success") then Accepted else Rejected(ServerReason(msg))
  }

  /** The notification for a rejected submission. The ensures only take the
      text apart for the proof of `FailureNoticeInjective`. */
  function FailureNotice(reason: string): (n: Notice)
    ensures n.severity == Error
    ensures |n.text| == |"Submission failed: "| + |reason|
    ensures n.text[..|"Submission failed: "|] == "Submission failed: "
    ensures n.text[|"Submission failed: "|..] == reason
  {
    Notice("Submission failed: " + reason, Error)
  }

  /** A well-formed reply whose status is not `success` is rejected with the
      server's message, or a fixed text when the server sent none. */
  lemma ServerRejection(status: nat, body: string, st: Option<string>, msg: Option<string>)
    requires IsOk(status) && LooksLikeJson(body) && st != Some("success")
    ensures Judge(HttpReply(status, body, Parsed(st, msg))) ==
              Rejected(if msg.Some? then msg.value else UnknownError)
  {
  }

  /** Different reasons never show the same failure notification, so the
      reason can be read back from what the user sees. */
  lemma FailureNoticeInjective(r1: string, r2: string)
    requires r1 != r2
    ensures FailureNotice(r1) != FailureNotice(r2)
  {
    assert FailureNotice(r1).text[|"Submission failed: "|..] == r1;
    assert FailureNotice(r2).text[|"Submission failed: "|..] == r2;
  }

  /** The HTTP status can be read back from a rejection for a non-OK status:
      two different failing statuses never produce the same notification. */
  lemma HttpReasonsDistinct(s1: nat, b1: string, p1: Parse, s2: nat, b2: string, p2: Parse)
    requires !IsOk(s1) && !IsOk(s2) && s1 != s2
    ensures Judge(HttpReply(s1, b1, p1)) != Judge(HttpReply(s2, b2, p2))
  {
    var pre := "HTTP error! status: ";
    if Judge(HttpReply(s1, b1, p1)) == Judge(HttpReply(s2, b2, p2)) {
      assert (pre + DecimalString(s1))[|pre|..] == DecimalString(s1);
      assert (pre + DecimalString(s2))[|pre|..] == DecimalString(s2);
      DecimalInjective(s1, s2);
    }
  }
}

=== FILE: text.dfy ===
/** String helpers the controller relies on: JavaScript's `String.prototype.trim`
    (used to decide whether a text field is filled in) and the decimal rendering
    of an HTTP status inside a template literal. */
module Text {

  /** The characters `trim` strips: ECMAScript WhiteSpace (tab, vertical tab,
      form feed, space, no-break space, byte-order mark and the Unicode space
      separators) and LineTerminator (LF, CR, line and paragraph separators). */
  predicate IsJsSpace(c: char) {
    || c == '\t' || c == '\n' || c == '\U{B}' || c == '\U{C}' || c == '\r'
    || c == ' ' || c == '\U{A0}' || c == '\U{1680}'
    || ('\U{2000}' <= c <= '\U{200A}')
    || c == '\U{2028}' || c == '\U{2029}' || c == '\U{202F}' || c == '\U{205F}'
    || c == '\U{3000}' || c == '\U{FEFF}'
  }

  /** True iff every character of `s` is one `trim` would strip. */
  predicate AllSpace(s: string) {
    forall i :: 0 <= i < |s| ==> IsJsSpace(s[i])
  }

  /** Drops the leading run of space characters. */
  function TrimStart(s: string): (r: string)
    ensures |r| <= |s| && r == s[|s| - |r|..]
    ensures r == [] || !IsJsSpace(r[0])
    ensures forall i :: 0 <= i < |s| - |r| ==> IsJsSpace(s[i])
  {
    if |s| > 0 && IsJsSpace(s[0]) then TrimStart(s[1..]) else s
  }

  /** Drops the trailing run of space characters. */
  function TrimEnd(s: string): (r: string)
    ensures |r| <= |s| && r == s[..|r|]
    ensures r == [] || !IsJsSpace(r[|r| - 1])
    ensures forall i :: |r| <= i < |s| ==> IsJsSpace(s[i])
  {
    if |s| > 0 && IsJsSpace(s[|s| - 1]) then TrimEnd(s[..|s| - 1]) else s
  }

  /** `s.trim()`. */
  function Trim(s: string): string {
    TrimEnd(TrimStart(s))
  }

  /** The trimmed string is a contiguous piece of the input that neither starts
      nor ends with a space, and everything cut off around it is space. */
  lemma TrimIsCore(s: string)
    ensures exists a, b :: 0 <= a <= b <= |s| && Trim(s) == s[a..b]
                           && AllSpace(s[..a]) && AllSpace(s[b..])
    ensures Trim(s) == [] || (!IsJsSpace(Trim(s)[0]) && !IsJsSpace(Trim(s)[|Trim(s)| - 1]))
  {
    var t := TrimStart(s);
    var r := TrimEnd(t);
    CoreSlice(s, t, r);
    var a := |s| - |t|;
    var b := a + |r|;
    assert 0 <= a <= b <= |s| && r == s[a..b] && AllSpace(s[..a]) && AllSpace(s[b..]);
  }

  /** Cutting a space prefix and then a space suffix leaves a slice with only
      space around it. */
  lemma CoreSlice(s: string, t: string, r: string)
    requires |t| <= |s| && t == s[|s| - |t|..]
    requires forall i :: 0 <= i < |s| - |t| ==> IsJsSpace(s[i])
    requires |r| <= |t| && r == t[..|r|]
    requires forall i :: |r| <= i < |t| ==> IsJsSpace(t[i])
    ensures r == s[|s| - |t|..|s| - |t| + |r|]
    ensures AllSpace(s[..|s| - |t|]) && AllSpace(s[|s| - |t| + |r|..])
  {
    var b := |s| - |t| + |r|;
    forall i | 0 <= i < |s| - b
      ensures IsJsSpace(s[b..][i])
    {
      assert s[b..][i] == t[|r| + i];
    }
  }

  /** A value trims to the empty string exactly when it consists of spaces only. */
  lemma TrimEmptyIff(s: string)
    ensures Trim(s) == [] <==> AllSpace(s)
  {
    var t := TrimStart(s);
    if Trim(s) == [] {
      // A non-empty remainder would start with a non-space and survive TrimEnd.
      assert t == [];
    } else {
      assert |t| > 0 && !IsJsSpace(t[0]);
      assert s[|s| - |t|] == t[0];
    }
  }

  /** The decimal digit for `d`. */
  function DigitChar(d: nat): (c: char)
    requires d < 10
    ensures '0' <= c <= '9' && c as int - '0' as int == d
  {
    (('0' as int) + d) as char
  }

  predicate IsDigit(c: char) {
    '0' <= c <= '9'
  }

  function DigitValue(c: char): (d: nat)
    requires IsDigit(c)
    ensures d < 10
  {
    c as int - '0' as int
  }

  /** How a template literal renders a non-negative integer: shortest decimal form. */
  function DecimalString(n: nat): (r: string)
    ensures |r| >= 1
    ensures forall i :: 0 <= i < |r| ==> IsDigit(r[i])
    ensures |r| > 1 ==> r[0] != '0'
  {
    if n < 10 then [DigitChar(n)] else DecimalString(n / 10) + [DigitChar(n % 10)]
  }

  /** Reads a string of decimal digits back as a number. */
  function DecimalValue(s: string): nat
    requires forall i :: 0 <= i < |s| ==> IsDigit(s[i])
  {
    if s == [] then 0
    else DecimalValue(s[..|s| - 1]) * 10 + DigitValue(s[|s| - 1])
  }

  /** Rendering a status code in decimal loses nothing: it reads back as itself. */
  lemma {:induction false} DecimalRoundTrip(n: nat)
    ensures DecimalValue(DecimalString(n)) == n
  {
    var r := DecimalString(n);
    if n >= 10 {
      DecimalRoundTrip(n / 10);
      assert r[..|r| - 1] == DecimalString(n / 10);
    }
  }

  /** Distinct status codes are rendered differently. */
  lemma DecimalInjective(m: nat, n: nat)
    requires DecimalString(m) == DecimalString(n)
    ensures m == n
  {
    DecimalRoundTrip(m);
    DecimalRoundTrip(n);
  }
}

=== FILE: theme.dfy ===
/** The custom-property name `applyColors` (script.js) derives from a colour
    key: `--` followed by the key with a hyphen before every ASCII capital
    letter (`key.replace(/([A-Z])/g, '-$1')`), all lower-cased. */
module Theme {

  predicate IsAsciiUpper(c: char) {
    'A' <= c <= 'Z'
  }

  predicate IsAsciiLower(c: char) {
    'a' <= c <= 'z'
  }

  function ToLower(c: char): (d: char)
    ensures !IsAsciiUpper(d)
  {
    if IsAsciiUpper(c) then (c as int + 32) as char else c
  }

  function ToUpper(c: char): char {
    if IsAsciiLower(c) then (c as int - 32) as char else c
  }

  /** `key.replace(/([A-Z])/g, '-$1')`. */
  function Hyphenate(key: string): (r: string)
    ensures |r| >= |key|
  {
    if key == [] then []
    else (if IsAsciiUpper(key[0]) then ['-', key[0]] else [key[0]]) + Hyphenate(key[1..])
  }

  /** `.toLowerCase()`, for ASCII letters. */
  function Lower(s: string): (r: string)
    ensures |r| == |s|
    ensures forall i :: 0 <= i < |r| ==> r[i] == ToLower(s[i])
  {
    if s == [] then [] else [ToLower(s[0])] + Lower(s[1..])
  }

  /** The custom-property name for a colour key. */
  function CssVarName(key: string): string {
    "--" + Lower(Hyphenate(key))
  }

  /** Turns a hyphenated lower-case body back into the camel-case key:
      a hyphen and the letter after it become that letter in capitals. */
  function Camelize(s: string): string {
    if s == [] then []
    else if s[0] == '-' && |s| >= 2 then [ToUpper(s[1])] + Camelize(s[2..])
    else [s[0]] + Camelize(s[1..])
  }

  /** The body of a name holds no ASCII capitals, and has one hyphen more
      than the key for each capital. */
  lemma {:induction false} NameShape(key: string)
    ensures var body := Lower(Hyphenate(key));
            && (forall i :: 0 <= i < |body| ==> !IsAsciiUpper(body[i]))
            && |body| == |key| + CountUpper(key)
  {
    if key != [] {
      NameShape(key[1..]);
    }
  }

  function CountUpper(s: string): nat {
    if s == [] then 0 else (if IsAsciiUpper(s[0]) then 1 else 0) + CountUpper(s[1..])
  }

  /** Keys without hyphens are recovered from their names, so two such keys
      never share a custom property. */
  lemma {:induction false} CamelizeInverts(key: string)
    requires forall i :: 0 <= i < |key| ==> key[i] != '-'
    ensures Camelize(Lower(Hyphenate(key))) == key
  {
    if key != [] {
      var c := key[0];
      assert forall i :: 0 <= i < |key[1..]| ==> key[1..][i] != '-';
      CamelizeInverts(key[1..]);
      var rest := Lower(Hyphenate(key[1..]));
      if IsAsciiUpper(c) {
        assert Lower(['-', c] + Hyphenate(key[1..])) == ['-', ToLower(c)] + rest by {
          LowerAppend(['-', c], Hyphenate(key[1..]));
        }
        assert ToUpper(ToLower(c)) == c;
        assert (['-', ToLower(c)] + rest)[2..] == rest;
      } else {
        assert Lower([c] + Hyphenate(key[1..])) == [c] + rest by {
          LowerAppend([c], Hyphenate(key[1..]));
        }
        assert ([c] + rest)[1..] == rest;
      }
    }
  }

  lemma LowerAppend(a: string, b: string)
    ensures Lower(a + b) == Lower(a) + Lower(b)
  {
    assert forall i :: 0 <= i < |a + b| ==> Lower(a + b)[i] == (Lower(a) + Lower(b))[i];
  }

  /** Two hyphen-free colour keys with the same custom-property name are the
      same key. */
  lemma CssVarNameInjective(k1: string, k2: string)
    requires forall i :: 0 <= i < |k1| ==> k1[i] != '-'
    requires forall i :: 0 <= i < |k2| ==> k2[i] != '-'
    requires CssVarName(k1) == CssVarName(k2)
    ensures k1 == k2
  {
    assert CssVarName(k1)[2..] == Lower(Hyphenate(k1));
    assert CssVarName(k2)[2..] == Lower(Hyphenate(k2));
    CamelizeInverts(k1);
    CamelizeInverts(k2);
  }

  predicate NoUpper(s: string) {
    forall i :: 0 <= i < |s| ==> !IsAsciiUpper(s[i])
  }

  lemma {:induction false} HyphenateAppend(a: string, b: string)
    ensures Hyphenate(a + b) == Hyphenate(a) + Hyphenate(b)
  {
    if a != [] {
      var x := if IsAsciiUpper(a[0]) then ['-', a[0]] else [a[0]];
      assert (a + b)[0] == a[0];
      assert (a + b)[1..] == a[1..] + b;
      HyphenateAppend(a[1..], b);
      calc {
        Hyphenate(a + b);
        x + Hyphenate(a[1..] + b);
        x + (Hyphenate(a[1..]) + Hyphenate(b));
        (x + Hyphenate(a[1..])) + Hyphenate(b);
        Hyphenate(a) + Hyphenate(b);
      }
    } else {
      assert a + b == b;
    }
  }

  lemma {:induction false} HyphenateNoUpper(s: string)
    requires NoUpper(s)
    ensures Hyphenate(s) == s
  {
    if s != [] {
      HyphenateNoUpper(s[1..]);
    }
  }

  lemma LowerNoUpper(s: string)
    requires NoUpper(s)
    ensures Lower(s) == s
  {
  }

  /** A key of three camel-case words: a lower-case word followed by two
      capitalised ones. */
  lemma ThreeWords(w: string, a: char, x: string, b: char, y: string)
    requires NoUpper(w) && NoUpper(x) && NoUpper(y) && IsAsciiUpper(a) && IsAsciiUpper(b)
    ensures CssVarName(w + ([a] + x) + ([b] + y)) ==
              "--" + w + (['-', ToLower(a)] + x) + (['-', ToLower(b)] + y)
  {
    var u := w + ([a] + x);
    var hu := w + (['-', a] + x);
    var hv := ['-', b] + y;
    assert Hyphenate(u) == hu by {
      HyphenateAppend(w, [a] + x);
      HyphenateNoUpper(w);
      CapitalWord(a, x);
    }
    assert Hyphenate(u + ([b] + y)) == hu + hv by {
      HyphenateAppend(u, [b] + y);
      CapitalWord(b, y);
    }
    assert Lower(hu) == w + (['-', ToLower(a)] + x) by {
      LowerAppend(w, ['-', a] + x);
      LowerNoUpper(w);
      LowerWord(a, x);
    }
    assert Lower(hu + hv) == Lower(hu) + (['-', ToLower(b)] + y) by {
      LowerAppend(hu, hv);
      LowerWord(b, y);
    }
  }

  /** A capitalised word gains one hyphen in front. */
  lemma CapitalWord(a: char, x: string)
    requires IsAsciiUpper(a) && NoUpper(x)
    ensures Hyphenate([a] + x) == ['-', a] + x
  {
    HyphenateAppend([a], x);
    HyphenateNoUpper(x);
    assert Hyphenate([a]) == ['-', a];
  }

  /** Lower-casing a hyphenated word touches only its first letter. */
  lemma LowerWord(a: char, x: string)
    requires NoUpper(x)
    ensures Lower(['-', a] + x) == ['-', ToLower(a)] + x
  {
    LowerAppend(['-', a], x);
    LowerNoUpper(x);
  }

  /** The documented example: `colorPrimaryBlue` names `--color-primary-blue`. */
  lemma PrimaryBlueExample(key: string)
    requires key == "colorPrimaryBlue"
    ensures CssVarName(key) == "--color-primary-blue"
  {
    var w, x, y := "color", "rimary", "lue";
    calc {
      CssVarName(key);
      { assert key == w + (['P'] + x) + (['B'] + y); }
      CssVarName(w + (['P'] + x) + (['B'] + y));
      {
        assert NoUpper(w) && NoUpper(x) && NoUpper(y) by {
          assert NoUpper(w);
          assert NoUpper(x);
        }
        ThreeWords(w, 'P', x, 'B', y);
      }
      "--" + w + (['-', ToLower('P')] + x) + (['-', ToLower('B')] + y);
      "--color-primary-blue";
    }
  }
}

=== FILE: validation.dfy ===
/** `validateStep(stepNumber)` (script.js): checks the required controls of one
    step, sets or clears their error indicators, and reports pass or fail with
    at most one notification. */
module Validation {
  import opened Text
  import opened Form

  const RequiredMessage := "Please fill out all required fields (*)."

  /** Selected by `[required], [data-required="true"]`. */
  predicate Matched(f: Field) {
    f.required || f.dataRequired
  }

  /** The control is not inside a persona block, or its block is active.
      (A block position outside the page cannot occur on a well-formed page.) */
  predicate InActiveScope(f: Field, blocks: seq<Block>) {
    f.owner.None? || (f.owner.value < |blocks| && blocks[f.owner.value].active)
  }

  /** `currentStepEl.querySelector('input[name="g"]:checked')` finds something. */
  predicate GroupChecked(fields: seq<Field>, g: string) {
    exists j :: 0 <= j < |fields| && fields[j].name == g && fields[j].IsChecked()
  }

  /** What the `forEach` body does with one matched control. */
  datatype Check =
    | Skipped                            // hidden persona question, or an unmarked choice input
    | TextCheck(pass: bool)              // text-like control: trimmed value non-empty
    | GroupCheck(group: string, pass: bool)  // marked choice group: some member checked
  {
    predicate Fails() {
      !Skipped? && !pass
    }
  }

  /** The check applied to control `f` of a step whose controls are `fields`. */
  function CheckOf(fields: seq<Field>, blocks: seq<Block>, f: Field): Check {
    if !Matched(f) || !InActiveScope(f, blocks) then Skipped
    else if f.IsChoice() then
      if f.name != "" && f.dataRequired then GroupCheck(f.name, GroupChecked(fields, f.name))
      else Skipped
    else TextCheck(Trim(f.value) != "")
  }

  /** The control after its check: a text check sets the indicator on failure
      and clears it on success; other checks leave the control alone. */
  function Marked(f: Field, c: Check): Field {
    if c.TextCheck? then f.(error := !c.pass) else f
  }

  /** The group labels after a check: a group check sets or clears the
      indicator of the group's label, when that label exists. */
  function MarkLabel(labels: map<string, bool>, c: Check): map<string, bool> {
    if c.GroupCheck? && c.group in labels then labels[c.group := !c.pass] else labels
  }

  /** Some control at position `i` or later is a checked member of group `g`. */
  predicate GroupExaminedFrom(fields: seq<Field>, blocks: seq<Block>, i: nat, g: string) {
    exists j :: i <= j < |fields| && CheckOf(fields, blocks, fields[j]) == GroupCheck(g, GroupChecked(fields, g))
  }

  datatype Scan = Scan(ok: bool, fields: seq<Field>, labels: map<string, bool>)

  /** The verdict of the `forEach` from position `i` on: no control fails.
      Every control is visited; a failure does not stop the loop. */
  function PassFrom(fields: seq<Field>, blocks: seq<Block>, i: nat): (ok: bool)
    requires i <= |fields|
    ensures ok <==> forall j :: i <= j < |fields| ==> !CheckOf(fields, blocks, fields[j]).Fails()
    decreases |fields| - i
  {
    if i == |fields| then true
    else !CheckOf(fields, blocks, fields[i]).Fails() && PassFrom(fields, blocks, i + 1)
  }

  /** The controls from position `i` on, each with its indicator as its own
      check leaves it. */
  function MarkFrom(fields: seq<Field>, blocks: seq<Block>, i: nat): (r: seq<Field>)
    requires i <= |fields|
    ensures |r| == |fields| - i
    ensures forall j :: i <= j < |fields| ==> r[j - i] == Marked(fields[j], CheckOf(fields, blocks, fields[j]))
    decreases |fields| - i
  {
    if i == |fields| then []
    else [Marked(fields[i], CheckOf(fields, blocks, fields[i]))] + MarkFrom(fields, blocks, i + 1)
  }

  /** The group labels after the controls from position `i` on are checked:
      a label some of them examine carries its group's verdict, every other
      label keeps its indicator. */
  function LabelsFrom(fields: seq<Field>, blocks: seq<Block>, i: nat, labels: map<string, bool>): (r: map<string, bool>)
    requires i <= |fields|
    ensures r.Keys == labels.Keys
    ensures forall g :: g in labels ==>
              r[g] == if GroupExaminedFrom(fields, blocks, i, g) then !GroupChecked(fields, g) else labels[g]
    decreases |fields| - i
  {
    if i == |fields| then labels
    else
      ExaminedFromStep(fields, blocks, i);
      LabelsFrom(fields, blocks, i + 1, MarkLabel(labels, CheckOf(fields, blocks, fields[i])))
  }

  /** Group `g` is examined from position `i` on iff control `i` examines it
      or a later control does; a group check carries its group's verdict. */
  lemma ExaminedFromStep(fields: seq<Field>, blocks: seq<Block>, i: nat)
    requires i < |fields|
    ensures var c := CheckOf(fields, blocks, fields[i]);
            c.GroupCheck? ==> c == GroupCheck(c.group, GroupChecked(fields, c.group))
    ensures forall g :: GroupExaminedFrom(fields, blocks, i, g) <==>
              (CheckOf(fields, blocks, fields[i]) == GroupCheck(g, GroupChecked(fields, g))
               || GroupExaminedFrom(fields, blocks, i + 1, g))
  {
    forall g | GroupExaminedFrom(fields, blocks, i, g)
      ensures CheckOf(fields, blocks, fields[i]) == GroupCheck(g, GroupChecked(fields, g))
              || GroupExaminedFrom(fields, blocks, i + 1, g)
    {
      var j :| i <= j < |fields| && CheckOf(fields, blocks, fields[j]) == GroupCheck(g, GroupChecked(fields, g));
      if j > i {
        assert GroupExaminedFrom(fields, blocks, i + 1, g);
      }
    }
  }

  /** The whole `forEach` over a step's controls. */
  function ScanAll(fields: seq<Field>, blocks: seq<Block>, labels: map<string, bool>): (r: Scan)
    ensures r.ok <==> forall j :: 0 <= j < |fields| ==> !CheckOf(fields, blocks, fields[j]).Fails()
    ensures |r.fields| == |fields|
    ensures forall j :: 0 <= j < |fields| ==> r.fields[j] == Marked(fields[j], CheckOf(fields, blocks, fields[j]))
    ensures r.labels.Keys == labels.Keys
    ensures forall g :: g in labels ==>
              r.labels[g] == if GroupExaminedFrom(fields, blocks, 0, g) then !GroupChecked(fields, g) else labels[g]
  {
    Scan(PassFrom(fields, blocks, 0), MarkFrom(fields, blocks, 0), LabelsFrom(fields, blocks, 0, labels))
  }

  /** Result of validating one step: the verdict, the steps and group labels
      with their indicators updated, and the notifications shown. */
  datatype Validation = Validation(ok: bool, steps: seq<Step>, labels: map<string, bool>, notices: seq<Notice>)

  /** A control of step `k` that validation examines fails its check. */
  predicate SomeFailure(steps: seq<Step>, blocks: seq<Block>, k: nat)
    requires k < |steps|
  {
    exists j :: 0 <= j < |steps[k].fields| && CheckOf(steps[k].fields, blocks, steps[k].fields[j]).Fails()
  }

  /** `validateStep(n)`. */
  function ValidateStep(steps: seq<Step>, blocks: seq<Block>, labels: map<string, bool>, n: int): (r: Validation)
    ensures |r.steps| == |steps|
    // no step n: fail silently, change nothing
    ensures FindStep(steps, n).None? ==> !r.ok && r.steps == steps && r.labels == labels && r.notices == []
    // otherwise: pass iff no examined control of step n fails
    ensures FindStep(steps, n).Some? ==> (r.ok <==> !SomeFailure(steps, blocks, FindStep(steps, n).value))
    // exactly one error notification on failure, none otherwise
    ensures r.notices == if FindStep(steps, n).Some? && !r.ok then [Notice(RequiredMessage, Error)] else []
    // only the indicators of step n's controls change
    ensures forall k :: 0 <= k < |steps| ==>
              && r.steps[k].id == steps[k].id && r.steps[k].active == steps[k].active
              && |r.steps[k].fields| == |steps[k].fields|
              && (FindStep(steps, n) != Some(k) ==> r.steps[k] == steps[k])
    ensures r.labels.Keys == labels.Keys
  {
    match FindStep(steps, n)
    case None => Validation(false, steps, labels, [])
    case Some(k) =>
      var sc := ScanAll(steps[k].fields, blocks, labels);
      var steps' := steps[k := steps[k].(fields := sc.fields)];
      Validation(sc.ok, steps', sc.labels, if sc.ok then [] else [Notice(RequiredMessage, Error)])
  }

  /** Per-control effect of validating step `n`: every control of that step
      ends up exactly as its own check dictates. */
  lemma ValidateMarksEachField(steps: seq<Step>, blocks: seq<Block>, labels: map<string, bool>, n: int, k: nat, j: nat)
    requires FindStep(steps, n) == Some(k)
    requires j < |steps[k].fields|
    ensures var f := steps[k].fields[j];
            ValidateStep(steps, blocks, labels, n).steps[k].fields[j] == Marked(f, CheckOf(steps[k].fields, blocks, f))
  {
  }

  /** A required control inside an inactive persona block is never examined:
      it cannot make the step fail, and its indicator is left as it was. */
  lemma HiddenPersonaFieldIgnored(steps: seq<Step>, blocks: seq<Block>, labels: map<string, bool>, n: int, k: nat, j: nat)
    requires FindStep(steps, n) == Some(k)
    requires j < |steps[k].fields|
    requires steps[k].fields[j].owner.Some?
    requires steps[k].fields[j].owner.value < |blocks| && !blocks[steps[k].fields[j].owner.value].active
    ensures !CheckOf(steps[k].fields, blocks, steps[k].fields[j]).Fails()
    ensures ValidateStep(steps, blocks, labels, n).steps[k].fields[j] == steps[k].fields[j]
  {
  }

  /** An examined text-like control passes iff it holds a non-space character;
      on failure it gets the indicator, on success the indicator is cleared. */
  lemma TextFieldRule(steps: seq<Step>, blocks: seq<Block>, labels: map<string, bool>, n: int, k: nat, j: nat)
    requires FindStep(steps, n) == Some(k)
    requires j < |steps[k].fields|
    requires var f := steps[k].fields[j]; Matched(f) && InActiveScope(f, blocks) && !f.IsChoice()
    ensures var f := steps[k].fields[j];
            && (CheckOf(steps[k].fields, blocks, f).Fails() <==> AllSpace(f.value))
            && ValidateStep(steps, blocks, labels, n).steps[k].fields[j].error == AllSpace(f.value)
  {
    TrimEmptyIff(steps[k].fields[j].value);
  }

  /** A checkbox or radio input with `required` but without
      `data-required="true"` (or without a name) is never checked. */
  lemma UnmarkedChoiceIgnored(fields: seq<Field>, blocks: seq<Block>, f: Field)
    requires f.IsChoice() && (f.name == "" || !f.dataRequired)
    ensures CheckOf(fields, blocks, f) == Skipped
  {
  }

  /** An examined, marked choice input fails iff no input of its name in the
      same step is checked, and the label of its group then carries exactly
      that verdict. */
  lemma GroupRule(steps: seq<Step>, blocks: seq<Block>, labels: map<string, bool>, n: int, k: nat, j: nat)
    requires FindStep(steps, n) == Some(k)
    requires j < |steps[k].fields|
    requires var f := steps[k].fields[j];
             f.IsChoice() && f.dataRequired && f.name != "" && InActiveScope(f, blocks)
    ensures var f := steps[k].fields[j];
            var r := ValidateStep(steps, blocks, labels, n);
            && (CheckOf(steps[k].fields, blocks, f).Fails() <==>
                  forall i :: 0 <= i < |steps[k].fields| && steps[k].fields[i].name == f.name ==>
                                !steps[k].fields[i].IsChecked())
            && (f.name in labels ==> r.labels[f.name] == !GroupChecked(steps[k].fields, f.name))
  {
    var fs := steps[k].fields;
    var f := fs[j];
    assert CheckOf(fs, blocks, fs[j]) == GroupCheck(f.name, GroupChecked(fs, f.name));
    assert GroupExaminedFrom(fs, blocks, 0, f.name);
  }

  /** A group label that no examined control of step `n` refers to keeps its
      indicator. */
  lemma UnexaminedLabelUnchanged(steps: seq<Step>, blocks: seq<Block>, labels: map<string, bool>, n: int, g: string)
    requires g in labels
    requires forall k :: 0 <= k < |steps| && FindStep(steps, n) == Some(k) ==>
               forall j :: 0 <= j < |steps[k].fields| ==>
                 var c := CheckOf(steps[k].fields, blocks, steps[k].fields[j]);
                 !(c.GroupCheck? && c.group == g)
    ensures ValidateStep(steps, blocks, labels, n).labels[g] == labels[g]
  {
    match FindStep(steps, n)
    case None =>
    case Some(k) =>
      var fs := steps[k].fields;
      assert forall j :: 0 <= j < |fs| ==> CheckOf(fs, blocks, fs[j]) != GroupCheck(g, GroupChecked(fs, g));
  }

  /** Validation changes error indicators only, never an answer: the page
      after it holds the same answers as before. */
  lemma ValidateKeepsAnswers(steps: seq<Step>, blocks: seq<Block>, labels: map<string, bool>, n: int)
    ensures SameAnswers(steps, ValidateStep(steps, blocks, labels, n).steps)
  {
    var r := ValidateStep(steps, blocks, labels, n);
    forall k, j | 0 <= k < |steps| && 0 <= j < |steps[k].fields|
      ensures steps[k].fields[j].(error := false) == r.steps[k].fields[j].(error := false)
    {
      if FindStep(steps, n) == Some(k) {
        ValidateMarksEachField(steps, blocks, labels, n, k, j);
      }
    }
  }

  /** Validation only touches indicators: running it again on its own output
      gives the same verdict and changes nothing further. */
  lemma ValidateIdempotent(steps: seq<Step>, blocks: seq<Block>, labels: map<string, bool>, n: int)
    ensures var r := ValidateStep(steps, blocks, labels, n);
            var r2 := ValidateStep(r.steps, blocks, r.labels, n);
            r2.ok == r.ok && r2.steps == r.steps && r2.labels == r.labels
  {
    var r := ValidateStep(steps, blocks, labels, n);
    FindStepSameIds(steps, r.steps, n);
    match FindStep(steps, n)
    case None =>
    case Some(k) =>
      var sc := ScanAll(steps[k].fields, blocks, labels);
      assert r.steps == steps[k := steps[k].(fields := sc.fields)];
      ScanTwice(steps[k].fields, blocks, labels);
      var sc2 := ScanAll(sc.fields, blocks, sc.labels);
      assert r.steps[k].(fields := sc2.fields) == r.steps[k];
  }

  /** Scanning the marked controls again reproduces the same scan. */
  lemma ScanTwice(fs: seq<Field>, blocks: seq<Block>, labels: map<string, bool>)
    ensures var sc := ScanAll(fs, blocks, labels);
            var sc2 := ScanAll(sc.fields, blocks, sc.labels);
            sc2 == sc
  {
    var fs' := MarkFrom(fs, blocks, 0);
    var ls := LabelsFrom(fs, blocks, 0, labels);
    MarkingKeepsChecks(fs, fs', blocks);
    assert PassFrom(fs', blocks, 0) == PassFrom(fs, blocks, 0);
    MarkAgain(fs, fs', blocks);
    LabelsAgain(fs, fs', blocks, labels);
  }

  /** Marking already marked controls changes none of them. */
  lemma MarkAgain(fs: seq<Field>, fs': seq<Field>, blocks: seq<Block>)
    requires fs' == MarkFrom(fs, blocks, 0)
    requires forall j :: 0 <= j < |fs| ==> CheckOf(fs', blocks, fs'[j]) == CheckOf(fs, blocks, fs[j])
    ensures MarkFrom(fs', blocks, 0) == fs'
  {
    var m := MarkFrom(fs', blocks, 0);
    assert |m| == |fs'| == |fs|;
    forall j | 0 <= j < |fs'|
      ensures m[j] == fs'[j]
    {
      var c := CheckOf(fs, blocks, fs[j]);
      assert fs'[j] == Marked(fs[j], c);
      assert m[j] == Marked(fs'[j], c);
      MarkedTwice(fs[j], c);
    }
  }

  lemma MarkedTwice(f: Field, c: Check)
    ensures Marked(Marked(f, c), c) == Marked(f, c)
  {
  }

  /** Checking the marked controls again leaves the group labels as the
      first pass left them. */
  lemma LabelsAgain(fs: seq<Field>, fs': seq<Field>, blocks: seq<Block>, labels: map<string, bool>)
    requires |fs'| == |fs|
    requires forall j :: 0 <= j < |fs| ==> CheckOf(fs', blocks, fs'[j]) == CheckOf(fs, blocks, fs[j])
    requires forall g :: GroupChecked(fs', g) == GroupChecked(fs, g)
    ensures var ls := LabelsFrom(fs, blocks, 0, labels);
            LabelsFrom(fs', blocks, 0, ls) == ls
  {
    var ls := LabelsFrom(fs, blocks, 0, labels);
    var ls2 := LabelsFrom(fs', blocks, 0, ls);
    forall g | g in ls
      ensures ls2[g] == ls[g]
    {
      if GroupExaminedFrom(fs', blocks, 0, g) {
        var j :| 0 <= j < |fs'| && CheckOf(fs', blocks, fs'[j]) == GroupCheck(g, GroupChecked(fs', g));
        assert CheckOf(fs, blocks, fs[j]) == GroupCheck(g, GroupChecked(fs, g));
      }
    }
  }

  /** Setting or clearing indicators does not change any control's check. */
  lemma MarkingKeepsChecks(fs: seq<Field>, fs': seq<Field>, blocks: seq<Block>)
    requires |fs'| == |fs|
    requires forall j :: 0 <= j < |fs| ==> fs'[j] == Marked(fs[j], CheckOf(fs, blocks, fs[j]))
    ensures forall g :: GroupChecked(fs', g) == GroupChecked(fs, g)
    ensures forall j :: 0 <= j < |fs| ==> CheckOf(fs', blocks, fs'[j]) == CheckOf(fs, blocks, fs[j])
  {
    assert forall i :: 0 <= i < |fs| ==> fs'[i].name == fs[i].name && fs'[i].IsChecked() == fs[i].IsChecked();
    forall g ensures GroupChecked(fs', g) == GroupChecked(fs, g) {
      if GroupChecked(fs, g) {
        var i :| 0 <= i < |fs| && fs[i].name == g && fs[i].IsChecked();
        assert fs'[i].name == g && fs'[i].IsChecked();
      }
      if GroupChecked(fs', g) {
        var i :| 0 <= i < |fs'| && fs'[i].name == g && fs'[i].IsChecked();
        assert fs[i].name == g && fs[i].IsChecked();
      }
    }
  }

  lemma FindStepSameIds(a: seq<Step>, b: seq<Step>, n: int)
    requires |a| == |b|
    requires forall k :: 0 <= k < |a| ==> a[k].id == b[k].id
    ensures FindStep(a, n) == FindStep(b, n)
  {
    match FindStep(a, n)
    case None =>
    case Some(k) =>
      assert b[k].id == n;
  }
}
